=== FILE: README.md ===
# Issue lifecycle of the community management service

This project models the issue tracker of a community management back end. Residents report issues. Staff confirm them and later close them. Everybody can list them. The model covers two Java classes:

- `IssueService`:
  - the three-bucket listing (`listIssuesByResident`, `listAllIssues`);
  - saving a new issue with its uploaded images (`add`);
  - the two state transitions (`confirmIssue`, `closeIssue`);
  - the Spring caches `resident_issues` and `all_issues`, which these methods fill and evict.
- `IssueController`:
  - the role check that decides which listing a caller sees;
  - how a reported issue is built;
  - forwarding of the confirm and close requests.

Modules:

- `Issues` (`issues.dfy`): the persisted records. An issue has content, report date, confirmed flag, optional closed date, reporting resident and images. The repository is a map from generated id to issue. It also defines the lifecycle invariant "closed implies confirmed".
- `Listing` (`listing.dfy`): the listing queries, modelled on values.
  - The repository's derived queries become a table scan, a filter by scope and bucket, and a stable insertion sort on the bucket's date key.
  - Their concatenation is the listing. It is checked against an independent specification, `IsBucketResult` / `IsListing`: each bucket holds exactly the matching stored issues, each once, ordered by its key.
  - Also here: the partition lemmas, and the lemma that adding an issue leaves other residents' listings unchanged.
- `Lifecycle` (`lifecycle.dfy`):
  - the checks of confirm and close, in source order, with the error each raises, and the one-field update each makes;
  - the image-attachment step of `add`.
- `Service` (`service.dfy`): class `IssueService`.
  - It holds the repository, the id generator and the two caches.
  - Its invariant `Valid` says every cached listing equals the listing computed from the repository now. No cache entry is ever stale.
  - Every method keeps the invariant. A method that throws leaves the repository and the caches unchanged: Spring's `@CacheEvict` runs only after a normal return.
- `Controller` (`controller.dfy`): class `IssueController` over an `IssueService`.

Dates are day numbers. `LocalDate.now()`, the caller's name (`Principal`) and the caller's role (`AuthorityService`) are parameters. The upload service is a function parameter from an upload to its media link. A Java exception becomes a `Failure` outcome (service) or an `Err` result (`Lifecycle`).

Two choices the model makes, following the code:

- Content is not checked for blankness, because `addIssue` does not check it.
- Issues with equal sort keys are in no promised order, because the derived queries add no secondary key. The model's sort is stable over ascending ids, but no contract states a tie order.

## Model

| member | source | states |
|---|---|---|
| Listing.Filter | communityManagement/src/main/java/com/laioffer/communitymanagement/service/IssueService.java:40-42 | a row is kept iff it is in the input and its issue is in the scope and in the bucket, the `where` part of each derived query |
| Listing.Sort | communityManagement/src/main/java/com/laioffer/communitymanagement/service/IssueService.java:40-42 | the sorted rows are a permutation of the input |
| Listing.SortSorted | communityManagement/src/main/java/com/laioffer/communitymanagement/service/IssueService.java:40-42 | the sort orders by report date ascending in the two open buckets and by closed date descending in the closed bucket |
| Listing.Query | communityManagement/src/main/java/com/laioffer/communitymanagement/service/IssueService.java:40-42 | one bucket query returns exactly the stored issues of its scope and bucket, each once, ordered by the bucket's key |
| Listing.BucketMembership | communityManagement/src/main/java/com/laioffer/communitymanagement/service/IssueService.java:40-42 | a stored issue is in a bucket result iff its current state selects it; otherwise no row with its id is there |
| Listing.ScopeListing | communityManagement/src/main/java/com/laioffer/communitymanagement/service/IssueService.java:43-46 | a listing splits into the not-confirmed result, then the confirmed-not-closed result, then the closed result, and holds exactly the stored issues of its scope |
| Listing.EmptyBucket | communityManagement/src/main/java/com/laioffer/communitymanagement/service/IssueService.java:43-46 | a bucket no stored issue falls into contributes nothing |
| Listing.All | communityManagement/src/main/java/com/laioffer/communitymanagement/service/IssueService.java:51-58 | `listAllIssues` holds exactly the stored issues |
| Listing.ByResident | communityManagement/src/main/java/com/laioffer/communitymanagement/service/IssueService.java:39-46 | `listIssuesByResident(u)` holds only issues reported by `u`, and every such issue |
| Listing.OneBucket | communityManagement/src/main/java/com/laioffer/communitymanagement/service/IssueService.java:52-54 | under "closed implies confirmed" an issue satisfies exactly one bucket condition |
| Listing.AllIsPermutation | communityManagement/src/main/java/com/laioffer/communitymanagement/service/IssueService.java:51-58 | under "closed implies confirmed" `listAllIssues` lists every stored issue exactly once: distinct ids, exact membership, length equal to the repository size |
| Listing.ClosedUnconfirmedListedTwice | communityManagement/src/main/java/com/laioffer/communitymanagement/service/IssueService.java:52-54 | without the invariant the buckets overlap: a closed, unconfirmed issue is listed twice |
| Listing.AddLeavesOtherResidents | communityManagement/src/main/java/com/laioffer/communitymanagement/service/IssueService.java:62 | saving an issue under a new, larger id does not change any other resident's listing, so evicting only the reporter's entry is enough |
| Lifecycle.Confirm | communityManagement/src/main/java/com/laioffer/communitymanagement/service/IssueService.java:77-85 | an unknown id fails with not-exist; a confirmed issue fails with already-confirmed; it succeeds exactly when the issue exists and is unconfirmed, and then only that issue's `confirmed` becomes true, and "closed implies confirmed" is kept |
| Lifecycle.Close | communityManagement/src/main/java/com/laioffer/communitymanagement/service/IssueService.java:90-101 | checks not-exist, then already-closed, then not-confirmed; it succeeds exactly when the issue exists, is confirmed and is open, and then only that issue's closed date becomes `today`, and "closed implies confirmed" is kept |
| Lifecycle.ConfirmTwice | communityManagement/src/main/java/com/laioffer/communitymanagement/service/IssueService.java:82-84 | confirming an issue a second time fails with already-confirmed |
| Lifecycle.CloseAfterConfirm | communityManagement/src/main/java/com/laioffer/communitymanagement/service/IssueService.java:95-101 | a confirmed open issue can be closed, gets today's date, and a second close fails with already-closed |
| Lifecycle.ConfirmMovesBucket | communityManagement/src/main/java/com/laioffer/communitymanagement/service/IssueService.java:76-85 | after confirming an open issue, every listing covering the issue shows it as confirmed-not-closed and in no other bucket |
| Lifecycle.CloseMovesBucket | communityManagement/src/main/java/com/laioffer/communitymanagement/service/IssueService.java:89-101 | after a close, every listing covering the issue shows it as closed and in no other bucket |
| Lifecycle.NonEmptyUploads | communityManagement/src/main/java/com/laioffer/communitymanagement/service/IssueService.java:65-66 | an upload is in the result iff it is in the input and not empty; the result is no longer than the input |
| Lifecycle.NonEmptyUploadsAppend | communityManagement/src/main/java/com/laioffer/communitymanagement/service/IssueService.java:65-66 | the filter distributes over concatenation, so every non-empty upload is kept as often as it occurs and in input order |
| Lifecycle.AttachImages | communityManagement/src/main/java/com/laioffer/communitymanagement/service/IssueService.java:65-70 | at most one image per upload, each pointing back to the issue |
| Lifecycle.AttachMatchesUploads | communityManagement/src/main/java/com/laioffer/communitymanagement/service/IssueService.java:65-71 | image k holds the media link of the k-th non-empty upload and a back-reference to the issue: one image per non-empty upload, in input order |
| Lifecycle.AttachAppend | communityManagement/src/main/java/com/laioffer/communitymanagement/service/IssueService.java:65-70 | attaching keeps input order: the images of a concatenation are the images of each part, in turn |
| Service.FillResidentCache | communityManagement/src/main/java/com/laioffer/communitymanagement/service/IssueService.java:38 | filling one `resident_issues` entry with a fresh listing keeps the cache current |
| Service.AddKeepsResidentCache | communityManagement/src/main/java/com/laioffer/communitymanagement/service/IssueService.java:62 | after a save, dropping only the reporter's entry leaves a current `resident_issues` cache |
| Service.IssueService.constructor | communityManagement/src/main/java/com/laioffer/communitymanagement/service/IssueService.java:31-34 | the service wraps the given repository, whose ids all lie below the generator's next id; both caches start empty, and the invariant holds |
| Service.IssueService.ListIssuesByResident | communityManagement/src/main/java/com/laioffer/communitymanagement/service/IssueService.java:38-47 | returns the resident's listing of the current repository. A hit leaves the cache alone; a miss stores the listing under the username; `all_issues` is untouched |
| Service.IssueService.ListAllIssues | communityManagement/src/main/java/com/laioffer/communitymanagement/service/IssueService.java:50-59 | returns the listing of all issues of the current repository and leaves it cached; `resident_issues` is untouched |
| Service.IssueService.Add | communityManagement/src/main/java/com/laioffer/communitymanagement/service/IssueService.java:62-73 | saves the issue, with its attached images, under a fresh id. Only the reporter's `resident_issues` entry and `all_issues` are evicted. The caches stay current, and "closed implies confirmed" is kept when the new issue satisfies it |
| Service.IssueService.ConfirmIssue | communityManagement/src/main/java/com/laioffer/communitymanagement/service/IssueService.java:76-86 | on an error, returns that error and changes neither the repository nor the caches; on success, the repository is `Confirm`'s result and both caches are emptied |
| Service.IssueService.CloseIssue | communityManagement/src/main/java/com/laioffer/communitymanagement/service/IssueService.java:89-102 | on an error, returns that error and changes neither the repository nor the caches; on success, the repository is `Close`'s result and both caches are emptied |
| Controller.NewIssue | communityManagement/src/main/java/com/laioffer/communitymanagement/controller/IssueController.java:48-51 | the built issue has the submitted content, today's report date and the caller as resident; it is neither confirmed nor closed |
| Controller.NewIssueIsNotConfirmed | communityManagement/src/main/java/com/laioffer/communitymanagement/controller/IssueController.java:48-52 | once saved, the built issue is listed as not-confirmed, and in no other bucket, in the reporter's listing and in the listing of all issues |
| Controller.IssueController.constructor | communityManagement/src/main/java/com/laioffer/communitymanagement/controller/IssueController.java:19-22 | the controller works on the given service |
| Controller.IssueController.ListIssues | communityManagement/src/main/java/com/laioffer/communitymanagement/controller/IssueController.java:32-39 | a caller with role `ROLE_RESIDENT` gets the listing of their own issues; any other role gets the listing of all issues; a resident read fills only the caller's `resident_issues` entry on a miss, any other read leaves `all_issues` holding the result |
| Controller.IssueController.AddIssue | communityManagement/src/main/java/com/laioffer/communitymanagement/controller/IssueController.java:43-53 | the repository gains exactly the built issue, with its images, under the next id; the reporter's entry and `all_issues` are evicted |
| Controller.IssueController.ConfirmIssue | communityManagement/src/main/java/com/laioffer/communitymanagement/controller/IssueController.java:57-59 | the path id goes unchanged to the service's confirm; the outcome and new repository are `Confirm`'s; on success both caches are emptied, on an error they are untouched |
| Controller.IssueController.CloseIssue | communityManagement/src/main/java/com/laioffer/communitymanagement/controller/IssueController.java:63-65 | the path id goes unchanged, with today's date, to the service's close; the outcome and new repository are `Close`'s; on success both caches are emptied, on an error they are untouched |

## Left out

- The image upload service is an arbitrary function from upload to link. Upload failures are not modelled; the source does not handle them either.
- `.parallel()` in `add` is concurrency only. Images are attached sequentially, in input order, which is the order `collect` keeps.
- The race between the existence check and the update in confirm and close is a concurrency matter. The model is sequential.
- Spring's caching and transaction machinery, and JPA's query derivation, are replaced by explicit cache fields and filter-and-sort functions. Rollback of a failed `save` is not modelled.
- Id generation is a counter `nextId` in the service. The database's own id strategy is not modelled beyond "a fresh id larger than every stored one".
- An image's back-reference is the id of its issue rather than the issue object.
- `Service.IssueService.Add` returns the generated id, which the Java method does not. The value is only used to state the contract.
- The HTTP mapping of the errors (status codes, messages) and the request annotations are not modelled.
- Sort ties are not modelled: inside a bucket, issues with equal keys are in no promised order.

=== FILE: controller.dfy ===
/** The web layer in front of the issue service: which listing a caller is
    shown, how the issue a resident reports is built, and the forwarding of
    the confirm and close requests. The caller's name, role and the current
    date are inputs. */
module Controller {
  import opened Issues
  import Listing
  import Lifecycle
  import Service

  /** The authority that marks a resident. */
  const RoleResident: string := "ROLE_RESIDENT"

  /** The issue `addIssue` builds for the caller before handing it to the
      service: the submitted content, reported today by the caller, neither
      confirmed nor closed, and with no images yet. */
  function NewIssue(content: string, today: Date, username: Username): (i: Issue)
    ensures i.content == content && i.reportDate == today && i.resident == username
    ensures !i.confirmed && i.closedDate.None? && i.images == []
  {
    Issue(content, today, false, None, username, [])
  }

  /** Once saved, a newly built issue is listed in the not-confirmed bucket
      of every listing that covers its reporter, and in neither of the other
      two buckets, whatever images it was given. */
  lemma NewIssueIsNotConfirmed(store: Store, id: IssueId, content: string, today: Date, username: Username,
                               sc: Listing.Scope)
    requires id in store && store[id] == NewIssue(content, today, username).(images := store[id].images)
    requires sc == Listing.Everyone || sc == Listing.OwnedBy(username)
    ensures Row(id, store[id]) in Listing.Query(store, sc, Listing.NotConfirmed)
    ensures forall x :: x in Listing.Query(store, sc, Listing.ConfirmedNotClosed) ==> x.id != id
    ensures forall x :: x in Listing.Query(store, sc, Listing.Closed) ==> x.id != id
  {
    Listing.ListedOnlyIn(store, sc, id, Listing.NotConfirmed, Listing.ConfirmedNotClosed, Listing.Closed);
  }

  class IssueController {
    const issueService: Service.IssueService

    constructor (issueService: Service.IssueService)
      ensures this.issueService == issueService
    {
      this.issueService := issueService;
    }

    /** A resident is shown their own issues; any other role is shown every
        issue. Both come through the service's caches. */
    method ListIssues(username: Username, role: string) returns (r: seq<Row>)
      requires issueService.Valid()
      modifies issueService`residentIssues, issueService`allIssues
      ensures issueService.Valid()
      ensures role == RoleResident ==> r == Listing.ByResident(issueService.store, username)
      ensures role != RoleResident ==> r == Listing.All(issueService.store)
      ensures role == RoleResident ==> issueService.allIssues == old(issueService.allIssues)
      ensures role == RoleResident && username in old(issueService.residentIssues) ==>
        issueService.residentIssues == old(issueService.residentIssues)
      ensures role == RoleResident && username !in old(issueService.residentIssues) ==>
        issueService.residentIssues == old(issueService.residentIssues)[username := r]
      ensures role != RoleResident ==> issueService.allIssues == Some(r)
      ensures role != RoleResident ==> issueService.residentIssues == old(issueService.residentIssues)
    {
      if role == RoleResident {
        r := issueService.ListIssuesByResident(username);
      } else {
        r := issueService.ListAllIssues();
      }
    }

    /** Builds the caller's issue and has the service save it with its
        uploads. */
    method AddIssue(content: string, images: seq<Upload>, upload: Upload -> string, username: Username, today: Date)
      requires issueService.Valid()
      modifies issueService
      ensures issueService.Valid()
      ensures var id := old(issueService.nextId);
        issueService.store ==
          old(issueService.store)[id := NewIssue(content, today, username).(images := Lifecycle.AttachImages(images, upload, id))]
      ensures issueService.allIssues == None
      ensures issueService.residentIssues == old(issueService.residentIssues) - {username}
      ensures ClosedImpliesConfirmed(old(issueService.store)) ==> ClosedImpliesConfirmed(issueService.store)
    {
      var issue := NewIssue(content, today, username);
      var _ := issueService.Add(issue, images, upload);
    }

    /** Forwards the path id unchanged to the service's confirm. */
    method ConfirmIssue(issueId: IssueId) returns (o: Service.Outcome)
      requires issueService.Valid()
      modifies issueService
      ensures issueService.Valid()
      ensures o.Success? <==> Lifecycle.Confirm(old(issueService.store), issueId).Ok?
      ensures o.Success? ==> issueService.store == Lifecycle.Confirm(old(issueService.store), issueId).value
      ensures o.Failure? ==>
        o.error == Lifecycle.Confirm(old(issueService.store), issueId).error &&
        issueService.store == old(issueService.store) &&
        issueService.allIssues == old(issueService.allIssues) &&
        issueService.residentIssues == old(issueService.residentIssues)
      ensures o.Success? ==> issueService.allIssues == None && issueService.residentIssues == map[]
      ensures issueService.nextId == old(issueService.nextId)
    {
      o := issueService.ConfirmIssue(issueId);
    }

    /** Forwards the path id unchanged, with today's date, to the service's
        close. */
    method CloseIssue(issueId: IssueId, today: Date) returns (o: Service.Outcome)
      requires issueService.Valid()
      modifies issueService
      ensures issueService.Valid()
      ensures o.Success? <==> Lifecycle.Close(old(issueService.store), issueId, today).Ok?
      ensures o.Success? ==> issueService.store == Lifecycle.Close(old(issueService.store), issueId, today).value
      ensures o.Failure? ==>
        o.error == Lifecycle.Close(old(issueService.store), issueId, today).error &&
        issueService.store == old(issueService.store) &&
        issueService.allIssues == old(issueService.allIssues) &&
        issueService.residentIssues == old(issueService.residentIssues)
      ensures o.Success? ==> issueService.allIssues == None && issueService.residentIssues == map[]
      ensures issueService.nextId == old(issueService.nextId)
    {
      o := issueService.CloseIssue(issueId, today);
    }
  }
}

=== FILE: issues.dfy ===
/** The persisted entities of the issue tracker: an issue, its image
    attachments, and the repository of issues keyed by generated id. */
module Issues {

  datatype Option<+T> = None | Some(value: T)

  /** Dates are day numbers; `today` is always passed in by the caller. */
  type Date = int

  /** The generated primary key of an issue (a `Long` in the repository). */
  type IssueId = int

  type Username = string

  /** An image attachment: the media link returned by the upload service and
      a back-reference to the owning issue. */
  datatype IssueImage = IssueImage(mediaLink: string, issueId: IssueId)

  /** One issue record as the repository stores it. */
  datatype Issue = Issue(
    content: string,
    reportDate: Date,
    confirmed: bool,
    closedDate: Option<Date>,
    resident: Username,
    images: seq<IssueImage>)

  /** The repository: issue id to issue record. */
  type Store = map<IssueId, Issue>

  /** An issue together with its id, as the listing queries return it. */
  datatype Row = Row(id: IssueId, issue: Issue)

  /** A raw multipart upload; it is empty when it has no bytes. */
  datatype Upload = Upload(bytes: seq<bv8>) {
    predicate IsEmpty() { |bytes| == 0 }
  }

  /** The lifecycle invariant: an issue is closed only once it is confirmed. */
  ghost predicate ClosedImpliesConfirmed(store: Store)
  {
    forall id :: id in store && store[id].closedDate.Some? ==> store[id].confirmed
  }
}

=== FILE: lifecycle.dfy ===
/** The issue state machine: the checks `confirmIssue` and `closeIssue` make,
    in their order, with the error each raises, and the targeted update each
    applies; and the image attachment step of `add`. */
module Lifecycle {
  import opened Issues
  import Listing

  datatype IssueError =
    | IssueNotExist
    | IssueAlreadyConfirmed
    | IssueAlreadyClosed
    | IssueNotConfirmed

  datatype Result<T> = Ok(value: T) | Err(error: IssueError)

  /** `after` differs from `before` at most in the record of `id`. */
  ghost predicate OthersUnchanged(before: Store, after: Store, id: IssueId)
  {
    after.Keys == before.Keys && forall k :: k in before && k != id ==> after[k] == before[k]
  }

  /** Confirming: not-exist, then already-confirmed; otherwise only the
      `confirmed` flag of that one issue becomes true. */
  function Confirm(store: Store, id: IssueId): (r: Result<Store>)
    ensures id !in store ==> r == Err(IssueNotExist)
    ensures id in store && store[id].confirmed ==> r == Err(IssueAlreadyConfirmed)
    ensures r.Ok? <==> id in store && !store[id].confirmed
    ensures r.Ok? ==> OthersUnchanged(store, r.value, id) && r.value[id] == store[id].(confirmed := true)
    ensures r.Ok? && ClosedImpliesConfirmed(store) ==> ClosedImpliesConfirmed(r.value)
  {
    if id !in store then Err(IssueNotExist)
    else if store[id].confirmed then Err(IssueAlreadyConfirmed)
    else Ok(store[id := store[id].(confirmed := true)])
  }

  /** Closing: not-exist, then already-closed, then not-confirmed; otherwise
      only the closed date of that one issue becomes `today`. */
  function Close(store: Store, id: IssueId, today: Date): (r: Result<Store>)
    ensures id !in store ==> r == Err(IssueNotExist)
    ensures id in store && store[id].closedDate.Some? ==> r == Err(IssueAlreadyClosed)
    ensures id in store && store[id].closedDate.None? && !store[id].confirmed ==> r == Err(IssueNotConfirmed)
    ensures r.Ok? <==> id in store && store[id].confirmed && store[id].closedDate.None?
    ensures r.Ok? ==> OthersUnchanged(store, r.value, id) && r.value[id] == store[id].(closedDate := Some(today))
    ensures r.Ok? && ClosedImpliesConfirmed(store) ==> ClosedImpliesConfirmed(r.value)
  {
    if id !in store then Err(IssueNotExist)
    else if store[id].closedDate.Some? then Err(IssueAlreadyClosed)
    else if !store[id].confirmed then Err(IssueNotConfirmed)
    else Ok(store[id := store[id].(closedDate := Some(today))])
  }

  /** Re-confirming is rejected, never silently accepted. */
  lemma ConfirmTwice(store: Store, id: IssueId)
    requires Confirm(store, id).Ok?
    ensures Confirm(Confirm(store, id).value, id) == Err(IssueAlreadyConfirmed)
  {
  }

  /** A confirmed open issue can be closed, and then not closed again. */
  lemma CloseAfterConfirm(store: Store, id: IssueId, today: Date)
    requires Confirm(store, id).Ok? && store[id].closedDate.None?
    ensures Close(Confirm(store, id).value, id, today).Ok?
    ensures Close(Confirm(store, id).value, id, today).value[id].closedDate == Some(today)
    ensures Close(Close(Confirm(store, id).value, id, today).value, id, today) == Err(IssueAlreadyClosed)
  {
  }

  /** After confirming an open issue, every listing that covers it shows it
      in the confirmed-not-closed bucket and in no other. */
  lemma ConfirmMovesBucket(store: Store, id: IssueId, sc: Listing.Scope)
    requires Confirm(store, id).Ok? && store[id].closedDate.None?
    requires Listing.InScope(sc, store[id])
    ensures var after := Confirm(store, id).value;
      Row(id, after[id]) in Listing.Query(after, sc, Listing.ConfirmedNotClosed)
    ensures var after := Confirm(store, id).value;
      forall x :: x in Listing.Query(after, sc, Listing.NotConfirmed) ==> x.id != id
    ensures var after := Confirm(store, id).value;
      forall x :: x in Listing.Query(after, sc, Listing.Closed) ==> x.id != id
  {
    Listing.ListedOnlyIn(Confirm(store, id).value, sc, id,
      Listing.ConfirmedNotClosed, Listing.NotConfirmed, Listing.Closed);
  }

  /** After closing an issue, every listing that covers it shows it in the
      closed bucket and in no other. */
  lemma CloseMovesBucket(store: Store, id: IssueId, today: Date, sc: Listing.Scope)
    requires Close(store, id, today).Ok?
    requires Listing.InScope(sc, store[id])
    ensures var after := Close(store, id, today).value;
      Row(id, after[id]) in Listing.Query(after, sc, Listing.Closed)
    ensures var after := Close(store, id, today).value;
      forall x :: x in Listing.Query(after, sc, Listing.ConfirmedNotClosed) ==> x.id != id
    ensures var after := Close(store, id, today).value;
      forall x :: x in Listing.Query(after, sc, Listing.NotConfirmed) ==> x.id != id
  {
    Listing.ListedOnlyIn(Close(store, id, today).value, sc, id,
      Listing.Closed, Listing.ConfirmedNotClosed, Listing.NotConfirmed);
  }

  // ---------------------------------------------------------------------
  // Images of a new issue
  // ---------------------------------------------------------------------

  /** The uploads that carry content, in input order. */
  function NonEmptyUploads(uploads: seq<Upload>): (r: seq<Upload>)
    ensures forall u :: u in r <==> u in uploads && !u.IsEmpty()
    ensures |r| <= |uploads|
  {
    if uploads == [] then []
    else
      assert forall u :: u in uploads ==> u == uploads[0] || u in uploads[1..];
      (if uploads[0].IsEmpty() then [] else [uploads[0]]) + NonEmptyUploads(uploads[1..])
  }

  /** Filtering is order preserving and keeps every non-empty upload as
      often as it occurs: the kept uploads of a concatenation are the kept
      uploads of each part, in turn. With the contract on a single upload
      (kept alone exactly when it is not empty) this determines the result. */
  lemma {:induction false} NonEmptyUploadsAppend(a: seq<Upload>, b: seq<Upload>)
    ensures NonEmptyUploads(a + b) == NonEmptyUploads(a) + NonEmptyUploads(b)
  {
    if a != [] {
      assert (a + b)[0] == a[0] && (a + b)[1..] == a[1..] + b;
      NonEmptyUploadsAppend(a[1..], b);
    } else {
      assert a + b == b;
    }
  }

  /** One image per non-empty upload, each holding the link the upload
      service returned for it and a back-reference to the issue `id`. */
  function AttachImages(uploads: seq<Upload>, upload: Upload -> string, id: IssueId): (r: seq<IssueImage>)
    ensures |r| <= |uploads|
    ensures forall k :: 0 <= k < |r| ==> r[k].issueId == id
  {
    if uploads == [] then []
    else if uploads[0].IsEmpty() then AttachImages(uploads[1..], upload, id)
    else [IssueImage(upload(uploads[0]), id)] + AttachImages(uploads[1..], upload, id)
  }

  /** The images are the uploaded links of exactly the non-empty uploads,
      in input order. */
  lemma {:induction false} AttachMatchesUploads(uploads: seq<Upload>, upload: Upload -> string, id: IssueId)
    ensures |AttachImages(uploads, upload, id)| == |NonEmptyUploads(uploads)|
    ensures forall k :: 0 <= k < |AttachImages(uploads, upload, id)| ==>
      AttachImages(uploads, upload, id)[k] == IssueImage(upload(NonEmptyUploads(uploads)[k]), id)
  {
    if uploads != [] {
      var rest := uploads[1..];
      AttachMatchesUploads(rest, upload, id);
      if uploads[0].IsEmpty() {
        assert NonEmptyUploads(uploads) == [] + NonEmptyUploads(rest) == NonEmptyUploads(rest);
      } else {
        var images, kept := AttachImages(uploads, upload, id), NonEmptyUploads(uploads);
        assert images == [IssueImage(upload(uploads[0]), id)] + AttachImages(rest, upload, id);
        assert kept == [uploads[0]] + NonEmptyUploads(rest);
        forall k | 1 <= k < |images| ensures images[k] == IssueImage(upload(kept[k]), id) {
          assert images[k] == AttachImages(rest, upload, id)[k - 1];
          assert kept[k] == NonEmptyUploads(rest)[k - 1];
        }
      }
    }
  }

  /** Attaching is order preserving: the images of a concatenation are the
      images of each part, in turn. */
  lemma {:induction false} AttachAppend(a: seq<Upload>, b: seq<Upload>, upload: Upload -> string, id: IssueId)
    ensures AttachImages(a + b, upload, id) == AttachImages(a, upload, id) + AttachImages(b, upload, id)
  {
    if a != [] {
      assert (a + b)[0] == a[0] && (a + b)[1..] == a[1..] + b;
      AttachAppend(a[1..], b, upload, id);
    } else {
      assert a + b == b;
    }
  }
}

=== FILE: listing.dfy ===
/** The three-bucket listing of issues: the repository's derived queries
    (filter by scope and bucket, order by the bucket's date key) and their
    concatenation, not-confirmed first, then confirmed-not-closed, then closed. */
module Listing {
  import opened Issues

  // ---------------------------------------------------------------------
  // Table scan: the stored rows in ascending id order
  // ---------------------------------------------------------------------

  /** The least element of a non-empty set of ids. */
  lemma {:induction false} MinOf(s: set<IssueId>) returns (m: IssueId)
    requires s != {}
    ensures m in s && forall x :: x in s ==> m <= x
    decreases |s|
  {
    assert (forall x :: x !in s) ==> s == {};
    var y :| y in s;
    if s == {y} {
      m := y;
    } else {
      var rest := s - {y};
      var m' := MinOf(rest);
      m := if m' <= y then m' else y;
      assert forall x :: x in s ==> x == y || x in rest;
    }
  }

  /** `r` lists the ids of `s` in strictly ascending order. */
  ghost predicate AscendingKeysOf(s: set<IssueId>, r: seq<IssueId>)
  {
    && |r| == |s|
    && (forall i :: 0 <= i < |r| ==> r[i] in s)
    && (forall k :: k in s ==> k in r)
    && (forall i, j :: 0 <= i < j < |r| ==> r[i] < r[j])
  }

  lemma ConsMin(s: set<IssueId>, m: IssueId, t: seq<IssueId>)
    requires m in s && forall x :: x in s ==> m <= x
    requires AscendingKeysOf(s - {m}, t)
    ensures AscendingKeysOf(s, [m] + t)
  {
    var r := [m] + t;
    assert |s - {m}| == |s| - 1;
    forall k | k in s ensures k in r {
      if k != m { assert k in s - {m}; }
    }
    forall i, j | 0 <= i < j < |r| ensures r[i] < r[j] {
      if i == 0 { assert r[j] == t[j - 1]; assert t[j - 1] in s - {m}; }
    }
  }

  /** The ids of `s` in strictly ascending order. */
  function KeysAscending(s: set<IssueId>): (r: seq<IssueId>)
    ensures AscendingKeysOf(s, r)
    decreases |s|
  {
    if s == {} then []
    else
      assert exists m :: m in s && forall x :: x in s ==> m <= x by {
        var m := MinOf(s);
      }
      var m :| m in s && forall x :: x in s ==> m <= x;
      var t := KeysAscending(s - {m});
      ConsMin(s, m, t);
      [m] + t
  }

  ghost predicate DistinctIds(r: seq<Row>)
  {
    forall i, j :: 0 <= i < j < |r| ==> r[i].id != r[j].id
  }

  /** `r` is the whole table: every stored issue exactly once, with its id. */
  ghost predicate IsTable(store: Store, r: seq<Row>)
  {
    && |r| == |store|
    && (forall i :: 0 <= i < |r| ==> r[i].id in store && r[i].issue == store[r[i].id])
    && (forall id :: id in store ==> Row(id, store[id]) in r)
    && DistinctIds(r)
  }

  lemma TableFromKeys(store: Store, ks: seq<IssueId>, r: seq<Row>)
    requires AscendingKeysOf(store.Keys, ks)
    requires |r| == |ks| && forall i :: 0 <= i < |ks| ==> r[i] == Row(ks[i], store[ks[i]])
    ensures IsTable(store, r)
  {
    assert |store| == |store.Keys|;
    forall id | id in store ensures Row(id, store[id]) in r {
      var i :| 0 <= i < |ks| && ks[i] == id;
      assert r[i] == Row(id, store[id]);
    }
  }

  /** The rows of the stored ids `ks`, in the order of `ks`. */
  function RowsOf(store: Store, ks: seq<IssueId>): (r: seq<Row>)
    requires forall i :: 0 <= i < |ks| ==> ks[i] in store
    ensures |r| == |ks| && forall i :: 0 <= i < |ks| ==> r[i] == Row(ks[i], store[ks[i]])
  {
    seq(|ks|, i requires 0 <= i < |ks| => Row(ks[i], store[ks[i]]))
  }

  /** The table scan, in ascending id order. */
  function Rows(store: Store): (r: seq<Row>)
    ensures IsTable(store, r)
  {
    var ks := KeysAscending(store.Keys);
    TableFromKeys(store, ks, RowsOf(store, ks));
    RowsOf(store, ks)
  }

  // ---------------------------------------------------------------------
  // Buckets, scopes and sort keys
  // ---------------------------------------------------------------------

  datatype Bucket = NotConfirmed | ConfirmedNotClosed | Closed

  /** Whose issues a listing covers: everybody's, or one resident's. */
  datatype Scope = Everyone | OwnedBy(username: Username)

  /** The bucket conditions exactly as the three derived queries state them:
      `ConfirmedFalse`, `ConfirmedTrueAndClosedDateIsNull`, `ClosedDateIsNotNull`. */
  predicate InBucket(b: Bucket, i: Issue)
  {
    match b
    case NotConfirmed => !i.confirmed
    case ConfirmedNotClosed => i.confirmed && i.closedDate.None?
    case Closed => i.closedDate.Some?
  }

  predicate InScope(sc: Scope, i: Issue)
  {
    sc.Everyone? || i.resident == sc.username
  }

  predicate Selects(sc: Scope, b: Bucket, i: Issue)
  {
    InScope(sc, i) && InBucket(b, i)
  }

  /** The closed date of a closed issue (never consulted for an open one). */
  function ClosedOn(i: Issue): (d: Date)
  {
    match i.closedDate
    case Some(d) => d
    case None => 0
  }

  /** `x` may precede `y` in bucket `b`: report date ascending for the two
      open buckets, closed date descending for the closed one. */
  predicate InOrder(b: Bucket, x: Issue, y: Issue)
  {
    match b
    case NotConfirmed => x.reportDate <= y.reportDate
    case ConfirmedNotClosed => x.reportDate <= y.reportDate
    case Closed => ClosedOn(x) >= ClosedOn(y)
  }

  ghost predicate SortedBy(b: Bucket, r: seq<Row>)
  {
    forall i, j :: 0 <= i < j < |r| ==> InOrder(b, r[i].issue, r[j].issue)
  }

  // ---------------------------------------------------------------------
  // One derived query: filter, then order by the bucket's key
  // ---------------------------------------------------------------------

  function Filter(rows: seq<Row>, sc: Scope, b: Bucket): (r: seq<Row>)
    ensures forall x :: x in r <==> x in rows && Selects(sc, b, x.issue)
  {
    if rows == [] then []
    else
      assert forall x :: x in rows ==> x == rows[0] || x in rows[1..];
      if Selects(sc, b, rows[0].issue) then [rows[0]] + Filter(rows[1..], sc, b)
      else Filter(rows[1..], sc, b)
  }

  lemma {:induction false} FilterDistinct(rows: seq<Row>, sc: Scope, b: Bucket)
    requires DistinctIds(rows)
    ensures DistinctIds(Filter(rows, sc, b))
  {
    if rows != [] {
      FilterDistinct(rows[1..], sc, b);
      var tail := Filter(rows[1..], sc, b);
      forall x | x in tail ensures x.id != rows[0].id {
        var k :| 0 <= k < |rows[1..]| && rows[1..][k] == x;
        assert rows[k + 1] == x;
      }
    }
  }

  /** Inserts `x` before the first element it may precede. */
  function Insert(b: Bucket, x: Row, s: seq<Row>): (r: seq<Row>)
    ensures multiset(r) == multiset(s) + multiset{x}
  {
    if s == [] then [x]
    else if InOrder(b, x.issue, s[0].issue) then [x] + s
    else
      assert s == [s[0]] + s[1..];
      [s[0]] + Insert(b, x, s[1..])
  }

  /** A stable insertion sort by the bucket's key. */
  function Sort(b: Bucket, s: seq<Row>): (r: seq<Row>)
    ensures multiset(r) == multiset(s)
  {
    if s == [] then []
    else
      assert s == [s[0]] + s[1..];
      Insert(b, s[0], Sort(b, s[1..]))
  }

  lemma InMultiset(x: Row, r: seq<Row>, s: seq<Row>)
    requires multiset(r) == multiset(s) && x in r
    ensures x in s
  {
    assert x in multiset(r);
  }

  lemma {:induction false} InsertSorted(b: Bucket, x: Row, s: seq<Row>)
    requires SortedBy(b, s)
    ensures SortedBy(b, Insert(b, x, s))
  {
    if s != [] && !InOrder(b, x.issue, s[0].issue) {
      var tail := Insert(b, x, s[1..]);
      InsertSorted(b, x, s[1..]);
      var r := [s[0]] + tail;
      forall j | 0 < j < |r| ensures InOrder(b, s[0].issue, r[j].issue) {
        assert r[j] in tail;
        InMultiset(r[j], tail, s[1..] + [x]);
        if r[j] != x {
          var k :| 0 <= k < |s[1..]| && s[1..][k] == r[j];
          assert s[k + 1] == r[j];
        }
      }
    }
  }

  lemma {:induction false} InsertDistinct(b: Bucket, x: Row, s: seq<Row>)
    requires DistinctIds(s) && forall y :: y in s ==> y.id != x.id
    ensures DistinctIds(Insert(b, x, s))
  {
    if s != [] && !InOrder(b, x.issue, s[0].issue) {
      var tail := Insert(b, x, s[1..]);
      InsertDistinct(b, x, s[1..]);
      var r := [s[0]] + tail;
      forall j | 0 < j < |r| ensures r[j].id != s[0].id {
        assert r[j] in tail;
        InMultiset(r[j], tail, s[1..] + [x]);
        if r[j] != x {
          var k :| 0 <= k < |s[1..]| && s[1..][k] == r[j];
          assert s[k + 1] == r[j];
        }
      }
    }
  }

  lemma {:induction false} SortSorted(b: Bucket, s: seq<Row>)
    ensures SortedBy(b, Sort(b, s))
  {
    if s != [] {
      SortSorted(b, s[1..]);
      InsertSorted(b, s[0], Sort(b, s[1..]));
    }
  }

  lemma {:induction false} SortDistinct(b: Bucket, s: seq<Row>)
    requires DistinctIds(s)
    ensures DistinctIds(Sort(b, s))
  {
    if s != [] {
      var tail := Sort(b, s[1..]);
      SortDistinct(b, s[1..]);
      forall y | y in tail ensures y.id != s[0].id {
        InMultiset(y, tail, s[1..]);
        var k :| 0 <= k < |s[1..]| && s[1..][k] == y;
        assert s[k + 1] == y;
      }
      InsertDistinct(b, s[0], tail);
    }
  }

  /** What one derived query promises: exactly the stored issues of the scope
      and bucket, each once, ordered by the bucket's key (ties unspecified). */
  ghost predicate IsBucketResult(store: Store, sc: Scope, b: Bucket, r: seq<Row>)
  {
    && DistinctIds(r)
    && (forall i :: 0 <= i < |r| ==>
          r[i].id in store && r[i].issue == store[r[i].id] && Selects(sc, b, r[i].issue))
    && (forall id :: id in store && Selects(sc, b, store[id]) ==> Row(id, store[id]) in r)
    && SortedBy(b, r)
  }

  lemma SelectionMeetsSpec(store: Store, sc: Scope, b: Bucket, rows: seq<Row>, selected: seq<Row>, r: seq<Row>)
    requires IsTable(store, rows)
    requires forall x :: x in selected <==> x in rows && Selects(sc, b, x.issue)
    requires multiset(r) == multiset(selected) && SortedBy(b, r) && DistinctIds(r)
    ensures IsBucketResult(store, sc, b, r)
  {
    forall i | 0 <= i < |r|
      ensures r[i].id in store && r[i].issue == store[r[i].id] && Selects(sc, b, r[i].issue)
    {
      assert r[i] in r;
      InMultiset(r[i], r, selected);
      var k :| 0 <= k < |rows| && rows[k] == r[i];
    }
    forall id | id in store && Selects(sc, b, store[id]) ensures Row(id, store[id]) in r {
      assert Row(id, store[id]) in selected;
      InMultiset(Row(id, store[id]), selected, r);
    }
  }

  function Query(store: Store, sc: Scope, b: Bucket): (r: seq<Row>)
    ensures IsBucketResult(store, sc, b, r)
  {
    var rows := Rows(store);
    var selected := Filter(rows, sc, b);
    var r := Sort(b, selected);
    FilterDistinct(rows, sc, b);
    SortSorted(b, selected);
    SortDistinct(b, selected);
    SelectionMeetsSpec(store, sc, b, rows, selected, r);
    r
  }

  // ---------------------------------------------------------------------
  // The listings
  // ---------------------------------------------------------------------

  /** The three buckets of a scope, concatenated in their fixed order: it
      splits into the three bucket results, and holds exactly the stored
      issues of the scope. */
  function ScopeListing(store: Store, sc: Scope): (r: seq<Row>)
    ensures IsListing(store, sc, r)
    ensures forall x :: x in r <==> x.id in store && x.issue == store[x.id] && InScope(sc, x.issue)
  {
    var q1, q2, q3 := Query(store, sc, NotConfirmed), Query(store, sc, ConfirmedNotClosed), Query(store, sc, Closed);
    ConcatIsListing(store, sc, q1, q2, q3);
    ConcatExact(store, sc, q1, q2, q3);
    q1 + q2 + q3
  }

  /** The listing `listIssuesByResident` returns: only issues reported by
      `username`, and every one of them. */
  function ByResident(store: Store, username: Username): (r: seq<Row>)
    ensures forall x :: x in r ==> x.id in store && x.issue == store[x.id] && x.issue.resident == username
    ensures forall id :: id in store && store[id].resident == username ==> Row(id, store[id]) in r
  {
    ScopeListing(store, OwnedBy(username))
  }

  /** The listing `listAllIssues` returns: exactly the stored issues. */
  function All(store: Store): (r: seq<Row>)
    ensures forall x :: x in r <==> x.id in store && x.issue == store[x.id]
  {
    ScopeListing(store, Everyone)
  }

  /** A listing splits into the three bucket results, in order. */
  ghost predicate IsListing(store: Store, sc: Scope, r: seq<Row>)
  {
    exists c1, c2 :: 0 <= c1 <= c2 <= |r|
      && IsBucketResult(store, sc, NotConfirmed, r[..c1])
      && IsBucketResult(store, sc, ConfirmedNotClosed, r[c1..c2])
      && IsBucketResult(store, sc, Closed, r[c2..])
  }

  lemma ConcatIsListing(store: Store, sc: Scope, q1: seq<Row>, q2: seq<Row>, q3: seq<Row>)
    requires IsBucketResult(store, sc, NotConfirmed, q1)
    requires IsBucketResult(store, sc, ConfirmedNotClosed, q2)
    requires IsBucketResult(store, sc, Closed, q3)
    ensures IsListing(store, sc, q1 + q2 + q3)
  {
    var r := q1 + q2 + q3;
    assert r[..|q1|] == q1;
    assert r[|q1|..|q1| + |q2|] == q2;
    assert r[|q1| + |q2|..] == q3;
  }

  /** A bucket with no matching issue contributes nothing. */
  lemma EmptyBucket(store: Store, sc: Scope, b: Bucket)
    requires forall id :: id in store ==> !Selects(sc, b, store[id])
    ensures Query(store, sc, b) == []
  {
    NoneSelected(store, sc, b, Query(store, sc, b));
  }

  lemma NoneSelected(store: Store, sc: Scope, b: Bucket, q: seq<Row>)
    requires IsBucketResult(store, sc, b, q)
    requires forall id :: id in store ==> !Selects(sc, b, store[id])
    ensures q == []
  {
    assert forall x :: x !in q;
    assert multiset(q) == multiset{};
    assert |q| == |multiset(q)| == 0;
  }

  /** Every issue falls into at least one bucket. */
  lemma {:induction false} SomeBucket(i: Issue) returns (b: Bucket)
    ensures InBucket(b, i)
  {
    if !i.confirmed {
      b := NotConfirmed;
    } else if i.closedDate.None? {
      b := ConfirmedNotClosed;
    } else {
      b := Closed;
    }
  }

  lemma BucketMember(store: Store, sc: Scope, b: Bucket, q: seq<Row>, x: Row)
    requires IsBucketResult(store, sc, b, q) && x in q
    ensures x.id in store && x.issue == store[x.id] && Selects(sc, b, x.issue)
  {
    var i :| 0 <= i < |q| && q[i] == x;
  }

  /** Whether a stored issue is in a bucket result depends on its state alone. */
  lemma BucketMembership(store: Store, sc: Scope, b: Bucket, q: seq<Row>, id: IssueId)
    requires IsBucketResult(store, sc, b, q) && id in store
    ensures Selects(sc, b, store[id]) ==> Row(id, store[id]) in q
    ensures !Selects(sc, b, store[id]) ==> forall x :: x in q ==> x.id != id
  {
    forall x | x in q ensures Selects(sc, b, store[id]) || x.id != id {
      BucketMember(store, sc, b, q, x);
    }
  }

  /** An issue in bucket `to` and in neither `other1` nor `other2` is listed
      in the former only. */
  lemma ListedOnlyIn(store: Store, sc: Scope, id: IssueId, to: Bucket, other1: Bucket, other2: Bucket)
    requires id in store && Selects(sc, to, store[id])
    requires !InBucket(other1, store[id]) && !InBucket(other2, store[id])
    ensures Row(id, store[id]) in Query(store, sc, to)
    ensures forall x :: x in Query(store, sc, other1) ==> x.id != id
    ensures forall x :: x in Query(store, sc, other2) ==> x.id != id
  {
    BucketMembership(store, sc, to, Query(store, sc, to), id);
    BucketMembership(store, sc, other1, Query(store, sc, other1), id);
    BucketMembership(store, sc, other2, Query(store, sc, other2), id);
  }

  lemma ConcatExact(store: Store, sc: Scope, q1: seq<Row>, q2: seq<Row>, q3: seq<Row>)
    requires IsBucketResult(store, sc, NotConfirmed, q1)
    requires IsBucketResult(store, sc, ConfirmedNotClosed, q2)
    requires IsBucketResult(store, sc, Closed, q3)
    ensures forall x :: x in q1 + q2 + q3 <==>
      x.id in store && x.issue == store[x.id] && InScope(sc, x.issue)
  {
    forall x: Row | x.id in store && x.issue == store[x.id] && InScope(sc, x.issue)
      ensures x in q1 + q2 + q3
    {
      var b := SomeBucket(x.issue);
      assert x == Row(x.id, store[x.id]);
      assert x in q1 || x in q2 || x in q3;
    }
    forall x | x in q1 + q2 + q3
      ensures x.id in store && x.issue == store[x.id] && InScope(sc, x.issue)
    {
      if x in q1 {
        BucketMember(store, sc, NotConfirmed, q1, x);
      } else if x in q2 {
        BucketMember(store, sc, ConfirmedNotClosed, q2, x);
      } else {
        BucketMember(store, sc, Closed, q3, x);
      }
    }
  }

  // ---------------------------------------------------------------------
  // Partition of the global listing under the lifecycle invariant
  // ---------------------------------------------------------------------

  /** Under "closed implies confirmed" an issue lies in exactly one bucket. */
  lemma OneBucket(i: Issue, b1: Bucket, b2: Bucket)
    requires i.closedDate.Some? ==> i.confirmed
    requires InBucket(b1, i) && InBucket(b2, i)
    ensures b1 == b2
  {
  }

  function IdSet(r: seq<Row>): (ids: set<IssueId>)
    ensures forall x :: x in r ==> x.id in ids
    ensures forall id :: id in ids ==> exists i :: 0 <= i < |r| && r[i].id == id
  {
    if r == [] then {}
    else
      var rest := IdSet(r[1..]);
      assert forall x :: x in r ==> x == r[0] || x in r[1..];
      {r[0].id} + rest
  }

  lemma {:induction false} DistinctCount(r: seq<Row>)
    requires DistinctIds(r)
    ensures |IdSet(r)| == |r|
  {
    if r != [] {
      var t := r[1..];
      DistinctCount(t);
      forall k | 0 <= k < |t| ensures t[k].id != r[0].id {
        assert t[k] == r[k + 1];
      }
    }
  }

  lemma ConcatDistinct(store: Store, q1: seq<Row>, q2: seq<Row>, q3: seq<Row>)
    requires ClosedImpliesConfirmed(store)
    requires IsBucketResult(store, Everyone, NotConfirmed, q1)
    requires IsBucketResult(store, Everyone, ConfirmedNotClosed, q2)
    requires IsBucketResult(store, Everyone, Closed, q3)
    ensures DistinctIds(q1 + q2 + q3)
  {
    var r := q1 + q2 + q3;
    var n1, n2 := |q1|, |q1| + |q2|;
    forall i, j | 0 <= i < j < |r| ensures r[i].id != r[j].id {
      var bi := if i < n1 then NotConfirmed else if i < n2 then ConfirmedNotClosed else Closed;
      var bj := if j < n1 then NotConfirmed else if j < n2 then ConfirmedNotClosed else Closed;
      if bi == NotConfirmed { assert r[i] == q1[i]; }
      else if bi == ConfirmedNotClosed { assert r[i] == q2[i - n1]; }
      else { assert r[i] == q3[i - n2]; }
      if bj == NotConfirmed { assert r[j] == q1[j]; }
      else if bj == ConfirmedNotClosed { assert r[j] == q2[j - n1]; }
      else { assert r[j] == q3[j - n2]; }
      if bi != bj {
        ApartBuckets(store, r[i], r[j], bi, bj);
      }
    }
  }

  /** Two stored rows in different buckets are different issues. */
  lemma ApartBuckets(store: Store, x: Row, y: Row, b1: Bucket, b2: Bucket)
    requires ClosedImpliesConfirmed(store)
    requires x.id in store && x.issue == store[x.id] && InBucket(b1, x.issue)
    requires y.id in store && y.issue == store[y.id] && InBucket(b2, y.issue)
    requires b1 != b2
    ensures x.id != y.id
  {
    assert x.issue.closedDate.Some? ==> x.issue.confirmed;
  }

  /** Under "closed implies confirmed" the global listing lists every stored
      issue exactly once: it is a permutation of the store. */
  lemma AllIsPermutation(store: Store)
    requires ClosedImpliesConfirmed(store)
    ensures DistinctIds(All(store))
    ensures forall x :: x in All(store) <==> x.id in store && x.issue == store[x.id]
    ensures |All(store)| == |store|
  {
    var r := All(store);
    ConcatDistinct(store, Query(store, Everyone, NotConfirmed),
      Query(store, Everyone, ConfirmedNotClosed), Query(store, Everyone, Closed));
    CoverCount(store, r);
  }

  lemma CoverCount(store: Store, r: seq<Row>)
    requires DistinctIds(r)
    requires forall x :: x in r <==> x.id in store && x.issue == store[x.id]
    ensures |r| == |store|
  {
    DistinctCount(r);
    forall id | id in store ensures id in IdSet(r) {
      assert Row(id, store[id]) in r;
    }
    assert IdSet(r) == store.Keys;
  }

  /** Without the invariant the buckets overlap: a closed issue that was never
      confirmed is listed twice, once as not-confirmed and once as closed. */
  lemma ClosedUnconfirmedListedTwice(store: Store, id: IssueId)
    requires id in store && store[id].closedDate.Some? && !store[id].confirmed
    ensures !DistinctIds(All(store))
  {
    ConcatRepeats(store, id, Query(store, Everyone, NotConfirmed),
      Query(store, Everyone, ConfirmedNotClosed), Query(store, Everyone, Closed));
  }

  lemma ConcatRepeats(store: Store, id: IssueId, q1: seq<Row>, q2: seq<Row>, q3: seq<Row>)
    requires id in store && store[id].closedDate.Some? && !store[id].confirmed
    requires IsBucketResult(store, Everyone, NotConfirmed, q1)
    requires IsBucketResult(store, Everyone, Closed, q3)
    ensures !DistinctIds(q1 + q2 + q3)
  {
    var x := Row(id, store[id]);
    assert x in q1 && x in q3;
    var i :| 0 <= i < |q1| && q1[i] == x;
    var k :| 0 <= k < |q3| && q3[k] == x;
    var r := q1 + q2 + q3;
    assert r[i] == x && r[|q1| + |q2| + k] == x;
  }

  // ---------------------------------------------------------------------
  // Adding an issue leaves other residents' listings alone
  // ---------------------------------------------------------------------

  /** Two strictly ascending listings of the same ids agree. */
  lemma AscendingKeysUnique(s: set<IssueId>, a: seq<IssueId>, b: seq<IssueId>)
    requires AscendingKeysOf(s, a) && AscendingKeysOf(s, b)
    ensures a == b
  {
    var n := 0;
    while n < |a|
      invariant n <= |a| && forall i :: 0 <= i < n ==> a[i] == b[i]
    {
      AscendingAt(s, a, b, n);
      AscendingAt(s, b, a, n);
      n := n + 1;
    }
  }

  /** Where two ascending listings of `s` first differ, `b` is not the larger. */
  lemma AscendingAt(s: set<IssueId>, a: seq<IssueId>, b: seq<IssueId>, n: nat)
    requires AscendingKeysOf(s, a) && AscendingKeysOf(s, b)
    requires n < |a| && forall i :: 0 <= i < n ==> a[i] == b[i]
    ensures b[n] <= a[n]
  {
    assert a[n] in s;
    var k :| 0 <= k < |b| && b[k] == a[n];
    assert n <= k;
  }

  /** Appending a key above every key of `s` extends its ascending listing. */
  lemma AppendMaxAscending(s: set<IssueId>, ks: seq<IssueId>, m: IssueId)
    requires AscendingKeysOf(s, ks) && forall x :: x in s ==> x < m
    ensures AscendingKeysOf(s + {m}, ks + [m])
  {
    var r := ks + [m];
    assert m !in s;
    assert |s + {m}| == |s| + 1;
    forall i | 0 <= i < |r| ensures r[i] in s + {m} {
      if i < |ks| { assert r[i] == ks[i]; }
    }
    forall k | k in s + {m} ensures k in r {
      if k != m {
        var i :| 0 <= i < |ks| && ks[i] == k;
        assert r[i] == k;
      }
    }
    forall i, j | 0 <= i < j < |r| ensures r[i] < r[j] {
      assert r[i] == ks[i];
      if j < |ks| { assert r[j] == ks[j]; }
    }
  }

  lemma KeysAscendingExtend(s: set<IssueId>, m: IssueId)
    requires forall x :: x in s ==> x < m
    ensures KeysAscending(s + {m}) == KeysAscending(s) + [m]
  {
    AppendMaxAscending(s, KeysAscending(s), m);
    AscendingKeysUnique(s + {m}, KeysAscending(s + {m}), KeysAscending(s) + [m]);
  }

  lemma RowsOfExtend(store: Store, ks: seq<IssueId>, id: IssueId, x: Issue)
    requires forall i :: 0 <= i < |ks| ==> ks[i] in store && ks[i] != id
    ensures RowsOf(store[id := x], ks + [id]) == RowsOf(store, ks) + [Row(id, x)]
  {
  }

  lemma RowsExtend(store: Store, id: IssueId, x: Issue)
    requires forall k :: k in store ==> k < id
    ensures Rows(store[id := x]) == Rows(store) + [Row(id, x)]
  {
    var store' := store[id := x];
    assert store'.Keys == store.Keys + {id};
    KeysAscendingExtend(store.Keys, id);
    var ks := KeysAscending(store.Keys);
    RowsOfExtend(store, ks, id, x);
  }

  lemma {:induction false} FilterSkipsLast(rows: seq<Row>, x: Row, sc: Scope, b: Bucket)
    requires !Selects(sc, b, x.issue)
    ensures Filter(rows + [x], sc, b) == Filter(rows, sc, b)
  {
    if rows == [] {
      assert [x][1..] == [];
    } else {
      assert (rows + [x])[1..] == rows[1..] + [x];
      FilterSkipsLast(rows[1..], x, sc, b);
    }
  }

  /** Filing an issue for one resident does not change another resident's
      listing; only the filer's cached entry needs evicting. */
  lemma AddLeavesOtherResidents(store: Store, id: IssueId, x: Issue, username: Username)
    requires forall k :: k in store ==> k < id
    requires x.resident != username
    ensures ByResident(store[id := x], username) == ByResident(store, username)
  {
    RowsExtend(store, id, x);
    FilterSkipsLast(Rows(store), Row(id, x), OwnedBy(username), NotConfirmed);
    FilterSkipsLast(Rows(store), Row(id, x), OwnedBy(username), ConfirmedNotClosed);
    FilterSkipsLast(Rows(store), Row(id, x), OwnedBy(username), Closed);
  }
}

=== FILE: service.dfy ===
/** The issue service: the repository of issues, the generator of issue ids,
    and the two listing caches `all_issues` and `resident_issues` that the
    service fills on a read and evicts on a write. */
module Service {
  import opened Issues
  import Listing
  import Lifecycle

  /** How a state-changing call ends: normally, or with the exception it
      throws. */
  datatype Outcome = Success | Failure(error: Lifecycle.IssueError)

  /** Every entry of a `resident_issues` cache is the current listing of that
      resident's issues. */
  ghost predicate ResidentCacheCurrent(store: Store, cache: map<Username, seq<Row>>)
  {
    forall u :: u in cache ==> cache[u] == Listing.ByResident(store, u)
  }

  /** Filling the entry of `username` with a fresh listing keeps the cache
      current. */
  lemma FillResidentCache(store: Store, cache: map<Username, seq<Row>>, username: Username)
    requires ResidentCacheCurrent(store, cache)
    ensures ResidentCacheCurrent(store, cache[username := Listing.ByResident(store, username)])
  {
  }

  /** Saving a new issue under an id above every stored one leaves every
      other resident's listing as it was, so evicting only the reporter's
      entry keeps the cache current. */
  lemma AddKeepsResidentCache(store: Store, cache: map<Username, seq<Row>>, id: IssueId, x: Issue)
    requires forall k :: k in store ==> Issued(k, id)
    requires ResidentCacheCurrent(store, cache)
    ensures ResidentCacheCurrent(store[id := x], cache - {x.resident})
  {
    forall u | u in cache && u != x.resident
      ensures Listing.ByResident(store[id := x], u) == Listing.ByResident(store, u)
    {
      Listing.AddLeavesOtherResidents(store, id, x, u);
    }
  }

  /** `k` is an id the generator has already handed out. */
  predicate Issued(k: IssueId, nextId: IssueId)
  {
    k < nextId
  }

  class IssueService {
    /** The issue repository. */
    var store: Store
    /** The id the repository generates for the next saved issue. */
    var nextId: IssueId
    /** The `all_issues` cache: its single entry, when present. */
    var allIssues: Option<seq<Row>>
    /** The `resident_issues` cache, keyed by username. */
    var residentIssues: map<Username, seq<Row>>

    /** Every stored id was generated before `nextId`, and every cached
        listing is the listing the repository would return now, so no reader
        is ever served a stale one. (The id bound is triggered on `Issued`
        only, so that it is not instantiated for every row a listing holds.) */
    ghost predicate Valid()
      reads this
    {
      (forall k {:trigger Issued(k, nextId)} :: k in store ==> Issued(k, nextId)) &&
      (allIssues.Some? ==> allIssues.value == Listing.All(store)) &&
      ResidentCacheCurrent(store, residentIssues)
    }

    /** A service over the injected repository `initial`, whose generator
        hands out `next` and the ids above it. Both caches start empty. */
    constructor (initial: Store, next: IssueId)
      requires forall k :: k in initial ==> k < next
      ensures Valid()
      ensures store == initial && nextId == next && allIssues == None && residentIssues == map[]
    {
      store := initial;
      nextId := next;
      allIssues := None;
      residentIssues := map[];
    }

    /** The listing of one resident's issues, read through the
        `resident_issues` cache under the key `username`. */
    method ListIssuesByResident(username: Username) returns (r: seq<Row>)
      requires Valid()
      modifies this`residentIssues
      ensures Valid()
      ensures r == Listing.ByResident(store, username)
      ensures username in old(residentIssues) ==> residentIssues == old(residentIssues)
      ensures username !in old(residentIssues) ==> residentIssues == old(residentIssues)[username := r]
      ensures allIssues == old(allIssues)
    {
      if username in residentIssues {
        r := residentIssues[username];
      } else {
        r := Listing.ByResident(store, username);
        FillResidentCache(store, residentIssues, username);
        residentIssues := residentIssues[username := r];
      }
    }

    /** The listing of every issue, read through the `all_issues` cache. */
    method ListAllIssues() returns (r: seq<Row>)
      requires Valid()
      modifies this`allIssues
      ensures Valid()
      ensures r == Listing.All(store)
      ensures allIssues == Some(r)
      ensures residentIssues == old(residentIssues)
    {
      if allIssues.None? {
        allIssues := Some(Listing.All(store));
      }
      r := allIssues.value;
    }

    /** Saves `issue` under a newly generated id with one image per non-empty
        upload, and evicts the reporter's `resident_issues` entry and the
        `all_issues` entry. Every other resident's cached listing stays, and
        stays current. */
    method Add(issue: Issue, images: seq<Upload>, upload: Upload -> string) returns (id: IssueId)
      requires Valid()
      modifies this
      ensures Valid()
      ensures id == old(nextId) && id !in old(store) && nextId == id + 1
      ensures store == old(store)[id := issue.(images := Lifecycle.AttachImages(images, upload, id))]
      ensures allIssues == None
      ensures residentIssues == old(residentIssues) - {issue.resident}
      ensures ClosedImpliesConfirmed(old(store)) && (issue.closedDate.Some? ==> issue.confirmed) ==>
        ClosedImpliesConfirmed(store)
    {
      id := nextId;
      var saved := issue.(images := Lifecycle.AttachImages(images, upload, id));
      AddKeepsResidentCache(store, residentIssues, id, saved);
      store := store[id := saved];
      nextId := nextId + 1;
      residentIssues := residentIssues - {issue.resident};
      allIssues := None;
    }

    /** Confirms issue `issueId`. On an error nothing changes, caches
        included; on success the issue is confirmed and both caches are
        emptied. */
    method ConfirmIssue(issueId: IssueId) returns (o: Outcome)
      requires Valid()
      modifies this
      ensures Valid() && nextId == old(nextId)
      ensures Lifecycle.Confirm(old(store), issueId).Err? ==>
        o == Failure(Lifecycle.Confirm(old(store), issueId).error) &&
        store == old(store) && allIssues == old(allIssues) && residentIssues == old(residentIssues)
      ensures Lifecycle.Confirm(old(store), issueId).Ok? ==>
        o == Success && store == Lifecycle.Confirm(old(store), issueId).value &&
        allIssues == None && residentIssues == map[]
    {
      if issueId !in store {
        o := Failure(Lifecycle.IssueNotExist);
      } else if store[issueId].confirmed {
        o := Failure(Lifecycle.IssueAlreadyConfirmed);
      } else {
        store := store[issueId := store[issueId].(confirmed := true)];
        residentIssues := map[];
        allIssues := None;
        o := Success;
      }
    }

    /** Closes issue `issueId` on day `today`. On an error nothing changes,
        caches included; on success the closed date is set and both caches
        are emptied. */
    method CloseIssue(issueId: IssueId, today: Date) returns (o: Outcome)
      requires Valid()
      modifies this
      ensures Valid() && nextId == old(nextId)
      ensures Lifecycle.Close(old(store), issueId, today).Err? ==>
        o == Failure(Lifecycle.Close(old(store), issueId, today).error) &&
        store == old(store) && allIssues == old(allIssues) && residentIssues == old(residentIssues)
      ensures Lifecycle.Close(old(store), issueId, today).Ok? ==>
        o == Success && store == Lifecycle.Close(old(store), issueId, today).value &&
        allIssues == None && residentIssues == map[]
    {
      if issueId !in store {
        o := Failure(Lifecycle.IssueNotExist);
      } else if store[issueId].closedDate.Some? {
        o := Failure(Lifecycle.IssueAlreadyClosed);
      } else if !store[issueId].confirmed {
        o := Failure(Lifecycle.IssueNotConfirmed);
      } else {
        store := store[issueId := store[issueId].(closedDate := Some(today))];
        residentIssues := map[];
        allIssues := None;
        o := Success;
      }
    }
  }
}
